=== FILE: README.md ===
# Bridge engine model

A Dafny model of `APIBridge`, the engine in `api_bridge.py`. It connects a
local sensory-processing client to a remote decision-making backend over
HTTP. It posts sensory events (text, emotion, audio features) with bounded
retry. It polls for commands and dispatches each one to the handler
registered for its `type`. It sends best-effort status reports.

The HTTP session is not modelled. Each network exchange is an abstract
`Transport.Outcome`: either a transport failure, or a status code with a body
that decoded as JSON or did not. The retry loop reads its outcomes from an
oracle `net: nat -> Outcome`, where `net(i)` is the outcome of attempt `i`.
A poll or a status send takes its single outcome as a parameter. How a
dispatched handler finishes (returns or raises) is also a parameter.

Every network operation returns a `Bridge.Exchange` record. It holds the
result (a value or the error raised to the caller), the requests issued in
order, the delays slept, and the handler invocation, if any. So attempt
counts, delay counts, the error that surfaces and whether a handler ran are
all stated in contracts.

Modules:
- `Wrappers`: `Option` and `Result`.
- `Json`: decoded JSON values, Python truthiness, `dict.get`, and `metadata or {}`.
- `Transport`: requests, outcomes, the `raise_for_status` threshold (400), and the `invalid_json` object.
- `Bridge`: configuration, engine state, `connect`/`disconnect`, the callback registry, and the `Exchange` record.
- `Dispatch`: `_process_command`.
- `Sensory`: `send_sensory_input` with its retry loop, and the three payload builders.
- `Poll`: `get_command`.
- `Status`: `send_status`.
- `Engine`: facts about the network operations taken together.

The model follows these details of the code:
- In a sensory send, a status of 400 or more is rejected and retried, because that is where `raise_for_status` raises, and a body is decoded for any status below 400, including redirects and other non-2xx statuses. A status send uses the same threshold but makes a single attempt: a status of 400 or more yields `{}`.
- A configured attempt count of zero or less makes no request and returns `{}`.
- In a poll, a status below 400 other than 200 and 204 falls through to `None` and is not logged as an error.
- A status send whose body does not decode returns the `invalid_json` object, as sensory sends do.
- Dispatch can crash before any handler runs, and the crash escapes `get_command`. This happens for a decoded poll body that is not an object (`.get` raises `AttributeError`). It also happens for a truthy `type` that is a list or object (the registry lookup raises `TypeError`). Only exceptions raised by the handler itself are swallowed. The model states this as `Dispatch.Crashes`.

## Model

| member | source | states |
|---|---|---|
| Bridge.NewBridge | api_bridge.py:35-38 | A new bridge has no session and no callbacks; a missing configuration becomes the defaults `http://localhost:5000`, 30 s, 3 attempts, 1.0 s delay. |
| Bridge.Connect | api_bridge.py:49-55 | After `connect` a session exists. One is opened, bound to the configured timeout, exactly when none existed; otherwise the bridge is unchanged. |
| Bridge.Disconnect | api_bridge.py:57-62 | After `disconnect` no session exists. The existing session is closed exactly when there was one; otherwise the bridge is unchanged. |
| Bridge.ConnectTwiceOpensOnce | api_bridge.py:49-55 | Two `connect` calls open exactly one session from the disconnected state and none from the connected one; the second call has no effect. |
| Bridge.DisconnectTwiceIsSafe | api_bridge.py:57-62 | A second `disconnect` closes nothing and leaves the session absent. |
| Bridge.ConnectDisconnectRoundTrip | api_bridge.py:49-62 | `connect` then `disconnect` closes the session that `connect` left open and returns to the disconnected state with configuration and callbacks intact. |
| Bridge.RegisterCallback | api_bridge.py:64-67 | `register_callback(k, h)` maps `k` to `h` and leaves every other key, the session and the configuration unchanged. |
| Bridge.RegisterOverwrites | api_bridge.py:64-66 | Registering the same key twice keeps only the later handler. |
| Dispatch.ProcessCommand | api_bridge.py:156-167 | A handler is invoked, once and with the whole command, exactly when `type` is a non-empty registered string. Dispatch raises exactly when the command is not an object or its truthy `type` is unhashable. |
| Dispatch.HandlerFailureSwallowed | api_bridge.py:161-167 | Whether the handler raises does not change whether dispatch raises or whether it invokes a handler. |
| Dispatch.UnrelatedRegistrationIrrelevant | api_bridge.py:158-160 | Dispatch of a command depends only on the registry entry its `type` names. |
| Sensory.FirstAccepted | api_bridge.py:85-92 | The index of the first attempt whose exchange passes `raise_for_status`: every earlier attempt is rejected and this one is not. |
| Sensory.RetryFrom | api_bridge.py:85-103 | Iteration `attempt` of the loop: a rejected exchange sleeps and retries, except on the last attempt, which re-raises; an accepted one returns its body; past the range the loop returns `{}`. Its contract is `Sensory.RetryCharacterisation`. |
| Sensory.RetryCharacterisation | api_bridge.py:85-101 | The loop issues the same request once per attempt up to the first accepted one, with one delay between consecutive attempts, and returns that attempt's body. If every attempt is rejected it makes all of them and re-raises the last error. |
| Sensory.SendSensoryInput | api_bridge.py:69-103 | Without a session it raises `NotConnected` and sends nothing. With no attempts configured it returns `{}` without a request. Otherwise the attempt and delay counts and the result are fixed by the first accepted attempt, as above. Every request is a POST of the data to `/api/sensory/<category>`. |
| Sensory.AllRejectedExhaustsAttempts | api_bridge.py:96-101 | A backend that rejects every attempt sees exactly N requests and N-1 delays, and the N-th error reaches the caller: the N-th transport failure itself, or the status error carrying the N-th status, which is 400 or more. |
| Sensory.FirstAcceptedAttemptReturns | api_bridge.py:87-95 | If attempt k is the first accepted one, there are k requests and k-1 delays. The decoded body is returned unchanged, or `{error: "invalid_json", message}` when it does not decode. |
| Sensory.TextPayload | api_bridge.py:107 | The text payload has exactly the fields `text` and `metadata`, with falsy metadata replaced by `{}`. |
| Sensory.EmotionPayload | api_bridge.py:113-117 | The emotion payload has exactly the fields `arousal`, `valence` and `metadata`, with falsy metadata replaced by `{}`. |
| Sensory.SendText | api_bridge.py:105-108 | Every request is a POST to `/api/sensory/text` whose body is `{text, metadata}`. |
| Sensory.SendEmotion | api_bridge.py:110-118 | Every request is a POST to `/api/sensory/emotion` whose body is `{arousal, valence, metadata}`. |
| Sensory.SendAudioFeatures | api_bridge.py:120-122 | Every request is a POST to `/api/sensory/audio` carrying the features unchanged. |
| Sensory.EmotionExample | api_bridge.py:110-118 | With the defaults, `send_emotion(a, v)` first posts `{"arousal": a, "valence": v, "metadata": {}}` to `http://localhost:5000/api/sensory/emotion`. |
| Poll.GetCommand | api_bridge.py:124-154 | Without a session it raises `NotConnected` and sends nothing. Otherwise it makes exactly one GET to `/api/commands/poll` with no delay. A 200 with a decoded body returns that command and dispatches it, unless dispatch crashes. Every other outcome returns `None` and runs no handler. A client error never reaches the caller. |
| Poll.NoContentPollIsEmpty | api_bridge.py:146-148 | A 204 poll returns `None`, runs no handler and makes one request. |
| Poll.SpeechCommandDispatched | api_bridge.py:138-142 | A `{"type": "speech", "text": "hi"}` command runs the registered `speech` handler exactly once, and the poll's result is the same whether the handler returns or raises. |
| Status.SendStatus | api_bridge.py:169-186 | Without a session it raises `NotConnected`. Otherwise it makes exactly one POST to `/api/status` and never raises for a JSON-encodable status and an exchange that does not time out. A rejected exchange yields `{}`; an accepted one yields its decoded body or the `invalid_json` object. |
| Status.StatusIsOneAttemptSend | api_bridge.py:176-186 | A status send matches a one-attempt sensory send on every accepted exchange. Where that send would raise a transport error, the status send returns `{}`. |
| Engine.DisconnectedIssuesNothing | api_bridge.py:80-81 | Without a session, the sensory send, the poll and the status send each raise `NotConnected` and issue no request (the same check is at lines 131-132 and 171-172). |
| Json.OrEmpty | api_bridge.py:107 | `metadata or {}` keeps a truthy value and turns anything falsy, including an omitted argument, into `{}`. |
| Transport.ErrorOf | api_bridge.py:88 | The client error a rejected exchange raises: its transport failure, or the status error `raise_for_status` raises for a status of 400 or more. Its values are stated by the contract of `Sensory.AllRejectedExhaustsAttempts`, in terms of the last outcome. |
| Transport.BodyResult | api_bridge.py:89-95 | The value an accepted exchange returns: the decoded body, or the `invalid_json` object with the decoder's message (the same handling is at lines 179-183). Its values are stated by the contracts of `Sensory.FirstAcceptedAttemptReturns` and `Status.SendStatus`: the body unchanged, or `InvalidJson(reason)`. |
| Json.Truthy | api_bridge.py:159 | Python truthiness of a decoded value: `None`, `False`, zero (an integer 0, or a double of +0.0 or -0.0), the empty string and empty containers are falsy. This is the test on `command_type` and, through `Json.OrEmpty`, on `metadata` at lines 107 and 116. |
| Transport.InvalidJson | api_bridge.py:95 | The undecodable-body value has exactly the fields `error = "invalid_json"` and `message`. |

## Left out

- The HTTP client session, its timeout object and the exchanges themselves are library I/O. Each exchange is an outcome supplied from outside. The model treats a timeout as one more transport failure. In the source it is not one. The session is built with only a total timeout (lines 52-54), and aiohttp 3.x reports an expired total timeout as `asyncio.TimeoutError`, which is not an `aiohttp.ClientError`. None of the handlers at lines 96, 151 and 184 catches it. A timed-out sensory send therefore raises on that attempt, with no retry and no delay. A timed-out poll raises out of `get_command`. A timed-out status send raises too. The model's retry, no-raise and `{}` promises do not cover timeouts.
- `connect` always succeeds in the model: a failure to construct the client session is not modelled. The backend address is not used when the session is built. A malformed address first fails in the request itself, where the client raises a client error. In the model that is a `TransportFailure`: sensory sends retry it, polls return `None`, and status sends return `{}`.
- `asyncio.sleep` is recorded as a delay value in the `Exchange`, not performed. The difference between coroutine and plain handlers is not modelled either: every handler is simply invoked and either returns or raises.
- Request payloads are typed as JSON values, so every payload is assumed JSON-encodable. In the source a `data`, `features` or `status` dict holding a value the JSON encoder rejects (bytes, a set, a numpy scalar) makes the `post` call at lines 87 and 177 raise `TypeError` while the request is built, before anything is sent. `TypeError` is not a client error. It escapes `send_sensory_input` on the first attempt without a retry, and it escapes `send_status` too. The model has no such path.
- Status.SendStatus: "never raises" holds only for a JSON-encodable status and an exchange that does not time out. A status that does not encode raises `TypeError`, as described in the previous line. An expired timeout raises `asyncio.TimeoutError`, as described above.
- Poll.GetCommand: "a client error never reaches the caller" does not cover a timeout. In the source an expired total timeout raises `asyncio.TimeoutError` out of `get_command`, and the driver's `except Exception` around its polling loop then shuts the system down. The model returns `None` for it, as for a transport failure.
- Poll.GetCommand: assumes a handler does not mutate the command it is given. The handler receives the very dict that `get_command` then returns (lines 141-142), so a mutating handler would change the poll's result. The contract says the decoded body is returned unchanged. The handlers registered in complete_integrated_system.py only read the command.
- What a handler does when it runs, including its own `send_status` calls, is outside the engine and not modelled. Only the fact of the invocation and how it finished are recorded.
- Exceptions outside `Exception` (such as `KeyboardInterrupt` or task cancellation) are not modelled. A handler raising one would not be swallowed.
- Logging is left out. It has no effect on results.
- JSON decoding is left out: a body arrives already decoded or with a failure reason. Numbers are opaque, and floats are kept as their 64 bits.
- The async context manager (`__aenter__`/`__aexit__`, lines 40-47) only calls `connect` and `disconnect`, and is not modelled separately.
- `main` (lines 189-211) is example usage and is not modelled.
- The driver in complete_integrated_system.py and the launcher in run_unified.py are not part of this model.

=== FILE: bridge.dfy ===
/**
 * Configuration, state and connection lifecycle of the bridge engine
 * (`BridgeConfig` and `APIBridge` in api_bridge.py), plus the callback
 * registry and the record every network operation returns.
 */
module Bridge {
  import opened Wrappers
  import opened Json
  import opened Transport

  /** `BridgeConfig`; the timeout is in seconds and the retry delay is an
      opaque duration that is only ever passed to the sleep. */
  datatype BridgeConfig = BridgeConfig(backendUrl: string, timeout: int, retryAttempts: int, retryDelay: real)

  /** The dataclass defaults. */
  const DefaultConfig: BridgeConfig := BridgeConfig("http://localhost:5000", 30, 3, 1.0)

  /** An open client session, bound to a total timeout. */
  datatype Session = Session(totalTimeout: int)

  /** A registered callback, known only by identity: what it does when
      invoked is outside the engine. */
  datatype Handler = Handler(name: string)

  datatype Bridge = Bridge(config: BridgeConfig, session: Option<Session>, callbacks: map<string, Handler>)

  predicate Connected(b: Bridge) {
    b.session.Some?
  }

  /** `APIBridge(config)`: a missing configuration becomes the defaults; a
      new bridge has no session and no callbacks. */
  function NewBridge(config: Option<BridgeConfig>): (b: Bridge)
    ensures !Connected(b) && b.callbacks == map[]
    ensures config.Some? ==> b.config == config.value
    ensures config.None? ==> b.config.backendUrl == "http://localhost:5000" && b.config.timeout == 30
                             && b.config.retryAttempts == 3 && b.config.retryDelay == 1.0
  {
    Bridge(if config.Some? then config.value else DefaultConfig, None, map[])
  }

  /** What a lifecycle call did to the session handle. */
  datatype SessionEffect = Opened(session: Session) | Closed(session: Session) | NoEffect

  datatype Transition = Transition(after: Bridge, effect: SessionEffect)

  /** `connect`: opens a session bound to the configured timeout only when
      none exists; otherwise nothing changes. */
  function Connect(b: Bridge): (t: Transition)
    ensures Connected(t.after)
    ensures t.after.config == b.config && t.after.callbacks == b.callbacks
    ensures t.effect.Opened? <==> !Connected(b)
    ensures t.effect.Opened? ==> t.after.session == Some(t.effect.session)
                                 && t.effect.session.totalTimeout == b.config.timeout
    ensures Connected(b) ==> t == Transition(b, NoEffect)
  {
    if b.session.None? then
      var s := Session(b.config.timeout);
      Transition(b.(session := Some(s)), Opened(s))
    else
      Transition(b, NoEffect)
  }

  /** `disconnect`: closes and clears the session when there is one; the
      session is absent afterwards in every case. */
  function Disconnect(b: Bridge): (t: Transition)
    ensures !Connected(t.after)
    ensures t.after.config == b.config && t.after.callbacks == b.callbacks
    ensures t.effect.Closed? <==> Connected(b)
    ensures t.effect.Closed? ==> b.session == Some(t.effect.session)
    ensures !Connected(b) ==> t == Transition(b, NoEffect)
  {
    match b.session
    case Some(s) => Transition(b.(session := None), Closed(s))
    case None => Transition(b, NoEffect)
  }

  /** The number of sessions a sequence of lifecycle effects opened. */
  function OpenedCount(effects: seq<SessionEffect>): nat {
    if |effects| == 0 then 0
    else (if effects[0].Opened? then 1 else 0) + OpenedCount(effects[1..])
  }

  /** Calling `connect` twice opens exactly one session when the bridge was
      disconnected and none when it was connected, and the second call
      changes nothing. */
  lemma ConnectTwiceOpensOnce(b: Bridge)
    ensures var t1 := Connect(b); var t2 := Connect(t1.after);
            && t2 == Transition(t1.after, NoEffect)
            && OpenedCount([t1.effect, t2.effect]) == (if Connected(b) then 0 else 1)
  {
    var t1 := Connect(b);
    assert OpenedCount([t1.effect, NoEffect]) == OpenedCount([t1.effect]) + OpenedCount([NoEffect]) by {
      assert [t1.effect, NoEffect][1..] == [NoEffect];
    }
  }

  /** Calling `disconnect` twice is safe: the second call closes nothing and
      leaves the session absent. */
  lemma DisconnectTwiceIsSafe(b: Bridge)
    ensures var t1 := Disconnect(b); var t2 := Disconnect(t1.after);
            && t2 == Transition(t1.after, NoEffect)
            && !Connected(t2.after)
            && (t1.effect.Closed? <==> Connected(b))
  {
  }

  /** Connecting and then disconnecting closes the very session that is open
      after `connect` and returns the bridge to the disconnected state with
      its configuration and callbacks intact. */
  lemma ConnectDisconnectRoundTrip(b: Bridge)
    ensures var t1 := Connect(b); var t2 := Disconnect(t1.after);
            && t2.effect == Closed(t1.after.session.value)
            && t2.after == b.(session := None)
  {
  }

  /** `register_callback`: binds the key to the handler, replacing any earlier
      one, and leaves every other key and the session alone. */
  function RegisterCallback(b: Bridge, key: string, handler: Handler): (r: Bridge)
    ensures r.callbacks.Keys == b.callbacks.Keys + {key}
    ensures r.callbacks[key] == handler
    ensures forall k :: k in b.callbacks && k != key ==> r.callbacks[k] == b.callbacks[k]
    ensures r.config == b.config && r.session == b.session
  {
    b.(callbacks := b.callbacks[key := handler])
  }

  /** Re-registering a key overwrites: only the last handler is kept. */
  lemma RegisterOverwrites(b: Bridge, key: string, h1: Handler, h2: Handler)
    ensures RegisterCallback(RegisterCallback(b, key, h1), key, h2) == RegisterCallback(b, key, h2)
  {
  }

  /** How a dispatched handler finished. Either way the engine goes on. */
  datatype HandlerRun = Returned | Raised(error: string)

  /** One invocation of a handler with a command. */
  datatype Invocation = Invocation(key: string, handler: Handler, command: Json, run: HandlerRun)

  /** Python errors raised while inspecting a command, before any handler
      runs: `.get` on a value that is not a dict, and a membership test with
      an unhashable `type`. */
  datatype Crash = AttributeError | TypeError

  /** The errors an operation can raise to its caller. */
  datatype BridgeError = NotConnected | ClientFailure(client: ClientError) | Crashed(crash: Crash)

  /** Everything observable about one operation: its result, the requests
      issued in order, the delays slept between attempts, and the handler
      invocation it performed, if any. */
  datatype Exchange<T> = Exchange(result: Result<T, BridgeError>, sent: seq<Request>, delays: seq<real>, invoked: Option<Invocation>)

  /** The result of an operation refused for want of a session: the error,
      and no request at all. */
  function Refused<T>(): Exchange<T> {
    Exchange(Failure(NotConnected), [], [], None)
  }

  function SensoryUrl(config: BridgeConfig, category: string): string {
    config.backendUrl + "/api/sensory/" + category
  }

  function PollUrl(config: BridgeConfig): string {
    config.backendUrl + "/api/commands/poll"
  }

  function StatusUrl(config: BridgeConfig): string {
    config.backendUrl + "/api/status"
  }
}

=== FILE: dispatch.dfy ===
/**
 * Command dispatch (`_process_command` in api_bridge.py): the command's
 * `type` field selects a registered handler, which is invoked once; an
 * exception the handler raises is caught and logged, never propagated.
 */
module Dispatch {
  import opened Wrappers
  import opened Json
  import opened Bridge

  /** `command.get("type")`; only meaningful for an object. */
  function TypeField(command: Json): Json
    requires command.JObj?
  {
    Get(command.fields, "type")
  }

  /** Inspecting the command raises before any handler runs: `.get` on a
      decoded value that is not a dict, or a truthy `type` that is a list or
      dict and so cannot be looked up in the registry. */
  predicate Crashes(command: Json) {
    !command.JObj? || (Truthy(TypeField(command)) && !Hashable(TypeField(command)))
  }

  /** The command selects a handler: it is an object whose `type` field is a
      non-empty string registered in the callbacks. */
  predicate Dispatchable(callbacks: map<string, Handler>, command: Json) {
    && command.JObj?
    && "type" in command.fields
    && command.fields["type"].JStr?
    && command.fields["type"].s != ""
    && command.fields["type"].s in callbacks
  }

  /** `_process_command`. `run` is how the selected handler finishes, should
      one be invoked; its exception is swallowed. */
  function ProcessCommand(callbacks: map<string, Handler>, command: Json, run: HandlerRun): (r: Result<Option<Invocation>, Crash>)
    ensures r.Failure? <==> Crashes(command)
    ensures r.Failure? ==> r.error == (if command.JObj? then TypeError else AttributeError)
    ensures r.Success? && r.value.Some? <==> Dispatchable(callbacks, command)
    ensures r.Success? && r.value.Some? ==>
              var key := command.fields["type"].s;
              r.value.value == Invocation(key, callbacks[key], command, run)
  {
    if !command.JObj? then Failure(AttributeError)
    else
      var commandType := TypeField(command);
      if !Truthy(commandType) then Success(None)
      else if !Hashable(commandType) then Failure(TypeError)
      else match commandType
        case JStr(key) =>
          if key in callbacks then Success(Some(Invocation(key, callbacks[key], command, run)))
          else Success(None)
        // A hashable non-string (a number or `True`) never equals a string key.
        case _ => Success(None)
  }

  /** A handler's failure never escapes dispatch: whether dispatch raises,
      and what it reports, does not depend on how the handler finished
      beyond the recorded run. */
  lemma HandlerFailureSwallowed(callbacks: map<string, Handler>, command: Json, error: string)
    ensures ProcessCommand(callbacks, command, Raised(error)).Failure?
            == ProcessCommand(callbacks, command, Returned).Failure?
    ensures ProcessCommand(callbacks, command, Raised(error)).Success? ==>
              ProcessCommand(callbacks, command, Raised(error)).value.Some?
              == ProcessCommand(callbacks, command, Returned).value.Some?
  {
  }

  /** Dispatch reads the registry only: registering a handler under a key
      the command does not name leaves its dispatch unchanged. */
  lemma UnrelatedRegistrationIrrelevant(b: Bridge, key: string, h: Handler, command: Json, run: HandlerRun)
    requires command.JObj? && TypeField(command) != JStr(key)
    ensures ProcessCommand(RegisterCallback(b, key, h).callbacks, command, run)
            == ProcessCommand(b.callbacks, command, run)
  {
  }
}

=== FILE: engine.dfy ===
/**
 * Facts about the engine's operations taken together.
 */
module Engine {
  import opened Wrappers
  import opened Json
  import opened Transport
  import opened Bridge
  import Sensory
  import Poll
  import Status

  /** Without a session every network operation raises `NotConnected` and
      issues no request. */
  lemma DisconnectedIssuesNothing(b: Bridge, category: string, data: Json, net: Sensory.Network, outcome: Outcome, run: HandlerRun)
    requires !Connected(b)
    ensures Sensory.SendSensoryInput(b, category, data, net).result == Failure(NotConnected)
    ensures Sensory.SendSensoryInput(b, category, data, net).sent == []
    ensures Poll.GetCommand(b, outcome, run).result == Failure(NotConnected)
    ensures Poll.GetCommand(b, outcome, run).sent == []
    ensures Status.SendStatus(b, data, outcome).result == Failure(NotConnected)
    ensures Status.SendStatus(b, data, outcome).sent == []
  {
  }
}

=== FILE: json.dfy ===
/**
 * JSON values as the bridge sees them after decoding: an opaque payload
 * whose only inspected features are object fields and Python truthiness.
 */
module Json {
  import opened Wrappers

  /** A JSON number as Python decodes it: an unbounded `int` or an IEEE-754
      double, kept as its 64 bits because the bridge does no arithmetic. */
  datatype Number = Int(i: int) | Float(bits: bv64)

  datatype Json =
    | JNull
    | JBool(b: bool)
    | JNum(n: Number)
    | JStr(s: string)
    | JArr(items: seq<Json>)
    | JObj(fields: map<string, Json>)

  /** The empty object `{}`. */
  const EmptyObject: Json := JObj(map[])

  /** Python truthiness of a decoded value: `None`, `False`, zero, the empty
      string and empty containers are falsy. A double is zero when every bit
      except the sign bit is clear (+0.0 and -0.0). */
  predicate Truthy(j: Json) {
    match j
    case JNull => false
    case JBool(b) => b
    case JNum(Int(i)) => i != 0
    case JNum(Float(bits)) => bits & 0x7FFF_FFFF_FFFF_FFFF != 0
    case JStr(s) => |s| > 0
    case JArr(items) => |items| > 0
    case JObj(fields) => |fields| > 0
  }

  /** Whether Python can hash the decoded value: lists and dicts cannot be
      dictionary keys, so a membership test with them raises `TypeError`. */
  predicate Hashable(j: Json) {
    !j.JArr? && !j.JObj?
  }

  /** `obj.get(key)` on a decoded object: the field, or `None` when absent. */
  function Get(fields: map<string, Json>, key: string): Json {
    if key in fields then fields[key] else JNull
  }

  /** `metadata or {}`: a truthy value is kept, anything falsy (including an
      omitted argument) becomes the empty object. */
  function OrEmpty(j: Option<Json>): (r: Json)
    ensures Truthy(r) <==> j.Some? && Truthy(j.value)
    ensures Truthy(r) ==> j == Some(r)
    ensures !Truthy(r) ==> r == EmptyObject
  {
    if j.Some? && Truthy(j.value) then j.value else EmptyObject
  }
}

=== FILE: poll.dfy ===
/**
 * Command polling (`get_command` in api_bridge.py): a single exchange, whose
 * outcome is the parameter `outcome`, with no retry.
 */
module Poll {
  import opened Wrappers
  import opened Json
  import opened Transport
  import opened Bridge
  import opened Dispatch

  /** A poll response that carries a command: status 200 with a decoded body. */
  predicate Delivers(outcome: Outcome) {
    outcome.Response? && outcome.status == 200 && outcome.body.Parsed?
  }

  /** `get_command`. `run` is how a dispatched handler finishes. */
  function GetCommand(b: Bridge, outcome: Outcome, run: HandlerRun): (e: Exchange<Option<Json>>)
    ensures !Connected(b) ==> e == Refused()
    ensures Connected(b) ==> e.sent == [Request(HttpGet, PollUrl(b.config), None)] && e.delays == []
    // A delivered command is dispatched and returned, unless inspecting it crashes.
    ensures Connected(b) && Delivers(outcome) ==>
              e.result == (if Crashes(outcome.body.value) then Failure(Crashed(if outcome.body.value.JObj? then TypeError else AttributeError))
                           else Success(Some(outcome.body.value)))
    // 204, any other status, a transport failure or an undecodable body: no command.
    ensures Connected(b) && !Delivers(outcome) ==> e.result == Success(None) && e.invoked == None
    // A handler runs exactly when the delivered command selects one.
    ensures e.invoked.Some? <==> Connected(b) && Delivers(outcome) && Dispatchable(b.callbacks, outcome.body.value)
    ensures e.invoked.Some? ==>
              var key := outcome.body.value.fields["type"].s;
              e.invoked.value == Invocation(key, b.callbacks[key], outcome.body.value, run)
    // Transport errors never reach the caller.
    ensures e.result.Failure? ==> !e.result.error.ClientFailure?
  {
    if !Connected(b) then Refused()
    else
      var req := Request(HttpGet, PollUrl(b.config), None);
      match outcome
      case TransportFailure(_) => Exchange(Success(None), [req], [], None)
      case Response(status, body) =>
        if status == 200 then
          match body
          case Unparsable(_) => Exchange(Success(None), [req], [], None)
          case Parsed(command) =>
            match ProcessCommand(b.callbacks, command, run)
            case Failure(crash) => Exchange(Failure(Crashed(crash)), [req], [], None)
            case Success(invoked) => Exchange(Success(Some(command)), [req], [], invoked)
        else if status == 204 then
          Exchange(Success(None), [req], [], None)
        else
          // `raise_for_status` raises from 400 upwards and the error is
          // caught; below 400 the call falls through. Both end in `None`.
          Exchange(Success(None), [req], [], None)
  }

  /** A 204 poll yields no command and runs no handler. */
  lemma NoContentPollIsEmpty(b: Bridge, body: Body, run: HandlerRun)
    requires Connected(b)
    ensures var e := GetCommand(b, Response(204, body), run);
            e.result == Success(None) && e.invoked == None && |e.sent| == 1
  {
  }

  /** A speech command delivered to a bridge with a `speech` handler runs that
      handler exactly once with the whole command, and a failing handler
      changes nothing about what the poll returns. */
  lemma SpeechCommandDispatched(b: Bridge, h: Handler, error: string)
    requires Connected(b)
    ensures var r := RegisterCallback(b, "speech", h);
            var command := JObj(map["type" := JStr("speech"), "text" := JStr("hi")]);
            var ok := GetCommand(r, Response(200, Parsed(command)), Returned);
            var failing := GetCommand(r, Response(200, Parsed(command)), Raised(error));
            && ok.result == Success(Some(command))
            && failing.result == ok.result
            && ok.invoked == Some(Invocation("speech", h, command, Returned))
            && failing.invoked == Some(Invocation("speech", h, command, Raised(error)))
  {
    var command := JObj(map["type" := JStr("speech"), "text" := JStr("hi")]);
    assert Dispatchable(RegisterCallback(b, "speech", h).callbacks, command);
  }
}

=== FILE: sensory.dfy ===
/**
 * Sensory sends (`send_sensory_input` and its payload builders in
 * api_bridge.py): a POST retried a bounded number of times. The outcome of
 * attempt `i` (counting from 0) is `net(i)`.
 */
module Sensory {
  import opened Wrappers
  import opened Json
  import opened Transport
  import opened Bridge

  /** The network as seen by the retry loop: the outcome of each attempt. */
  type Network = nat -> Outcome

  /** The first attempt in `[from, n)` whose exchange is not rejected, or `n`
      when every one of them is. */
  function FirstAccepted(net: Network, from: nat, n: nat): (k: nat)
    requires from <= n
    ensures from <= k <= n
    ensures forall i :: from <= i < k ==> Rejected(net(i))
    ensures k < n ==> !Rejected(net(k))
    decreases n - from
  {
    if from == n || !Rejected(net(from)) then from
    else FirstAccepted(net, from + 1, n)
  }

  /** Iteration `attempt` of `for attempt in range(n)`: a rejected exchange
      sleeps and tries again, except on the last attempt, which re-raises its
      error; an accepted one ends the loop with its body. Past the range the
      loop falls through to `return {}`. */
  function RetryFrom(attempt: nat, n: int, req: Request, delay: real, net: Network): Exchange<Json>
    decreases n - attempt
  {
    if attempt >= n then Exchange(Success(EmptyObject), [], [], None)
    else
      var outcome := net(attempt);
      if Rejected(outcome) then
        if attempt < n - 1 then
          var rest := RetryFrom(attempt + 1, n, req, delay, net);
          Exchange(rest.result, [req] + rest.sent, [delay] + rest.delays, None)
        else
          Exchange(Failure(ClientFailure(ErrorOf(outcome))), [req], [], None)
      else
        Exchange(Success(BodyResult(outcome.body)), [req], [], None)
  }

  /** The retry loop started at `attempt` issues the same request once per
      attempt up to and including the first accepted one, sleeping once
      between consecutive attempts; it returns that attempt's body, or, when
      every remaining attempt is rejected, re-raises the last one's error. */
  lemma {:induction false} RetryCharacterisation(attempt: nat, n: nat, req: Request, delay: real, net: Network)
    requires attempt < n
    ensures var e := RetryFrom(attempt, n, req, delay, net);
            var k := FirstAccepted(net, attempt, n);
            && e.sent == seq(|e.sent|, _ => req)
            && e.delays == seq(|e.delays|, _ => delay)
            && e.invoked == None
            && (k < n ==> e.result == Success(BodyResult(net(k).body))
                          && |e.sent| == k - attempt + 1 && |e.delays| == k - attempt)
            && (k == n ==> e.result == Failure(ClientFailure(ErrorOf(net(n - 1))))
                           && |e.sent| == n - attempt && |e.delays| == n - attempt - 1)
    decreases n - attempt
  {
    var e := RetryFrom(attempt, n, req, delay, net);
    if Rejected(net(attempt)) && attempt < n - 1 {
      RetryCharacterisation(attempt + 1, n, req, delay, net);
      var rest := RetryFrom(attempt + 1, n, req, delay, net);
      assert e.sent == [req] + rest.sent;
      assert e.delays == [delay] + rest.delays;
    }
  }

  /** `send_sensory_input(category, data)`. */
  function SendSensoryInput(b: Bridge, category: string, data: Json, net: Network): (e: Exchange<Json>)
    ensures !Connected(b) ==> e == Refused()
    ensures e.invoked == None
    ensures forall i :: 0 <= i < |e.sent| ==> e.sent[i] == Request(HttpPost, SensoryUrl(b.config, category), Some(data))
    ensures forall i :: 0 <= i < |e.delays| ==> e.delays[i] == b.config.retryDelay
    ensures Connected(b) && b.config.retryAttempts <= 0 ==>
              e.result == Success(EmptyObject) && e.sent == [] && e.delays == []
    ensures Connected(b) && b.config.retryAttempts > 0 ==>
              var n := b.config.retryAttempts;
              var k := FirstAccepted(net, 0, n);
              && (k < n ==> e.result == Success(BodyResult(net(k).body)) && |e.sent| == k + 1 && |e.delays| == k)
              && (k == n ==> e.result == Failure(ClientFailure(ErrorOf(net(n - 1)))) && |e.sent| == n && |e.delays| == n - 1)
  {
    if !Connected(b) then Refused()
    else
      var req := Request(HttpPost, SensoryUrl(b.config, category), Some(data));
      var n := b.config.retryAttempts;
      if n > 0 then
        RetryCharacterisation(0, n, req, b.config.retryDelay, net);
        RetryFrom(0, n, req, b.config.retryDelay, net)
      else
        RetryFrom(0, n, req, b.config.retryDelay, net)
  }

  /** A backend that rejects every attempt is tried exactly `retry_attempts`
      times with one delay fewer, and the last attempt's error is raised:
      its transport failure, or the status error for its status of 400 or
      more. */
  lemma AllRejectedExhaustsAttempts(b: Bridge, category: string, data: Json, net: Network)
    requires Connected(b) && b.config.retryAttempts > 0
    requires forall i :: 0 <= i < b.config.retryAttempts ==> Rejected(net(i))
    ensures var n := b.config.retryAttempts; var e := SendSensoryInput(b, category, data, net);
            && |e.sent| == n && |e.delays| == n - 1
            && (net(n - 1).TransportFailure? ==>
                  e.result == Failure(ClientFailure(ConnectionFailed(net(n - 1).reason))))
            && (net(n - 1).Response? ==>
                  && RaisesForStatus(net(n - 1).status)
                  && e.result == Failure(ClientFailure(ResponseStatus(net(n - 1).status))))
  {
  }

  /** If attempt `k` (counting from 1) is the first that is not rejected, the
      send stops there: `k` requests, `k - 1` delays, and the body returned
      unchanged, or the `invalid_json` object when it does not decode. */
  lemma FirstAcceptedAttemptReturns(b: Bridge, category: string, data: Json, net: Network, k: nat)
    requires Connected(b) && 1 <= k <= b.config.retryAttempts
    requires forall i :: 0 <= i < k - 1 ==> Rejected(net(i))
    requires !Rejected(net(k - 1))
    ensures var e := SendSensoryInput(b, category, data, net);
            && |e.sent| == k && |e.delays| == k - 1
            && (net(k - 1).body.Parsed? ==> e.result == Success(net(k - 1).body.value))
            && (net(k - 1).body.Unparsable? ==> e.result == Success(InvalidJson(net(k - 1).body.reason)))
  {
    var first := FirstAccepted(net, 0, b.config.retryAttempts);
    assert first == k - 1;
  }

  /** The `text` payload: `{text, metadata}` with falsy metadata as `{}`. */
  function TextPayload(text: string, metadata: Option<Json>): (j: Json)
    ensures j.JObj? && j.fields.Keys == {"text", "metadata"}
    ensures j.fields["text"] == JStr(text) && j.fields["metadata"] == OrEmpty(metadata)
  {
    JObj(map["text" := JStr(text), "metadata" := OrEmpty(metadata)])
  }

  /** The `emotion` payload: `{arousal, valence, metadata}`. */
  function EmotionPayload(arousal: Number, valence: Number, metadata: Option<Json>): (j: Json)
    ensures j.JObj? && j.fields.Keys == {"arousal", "valence", "metadata"}
    ensures j.fields["arousal"] == JNum(arousal) && j.fields["valence"] == JNum(valence)
    ensures j.fields["metadata"] == OrEmpty(metadata)
  {
    JObj(map["arousal" := JNum(arousal), "valence" := JNum(valence), "metadata" := OrEmpty(metadata)])
  }

  /** `send_text`: a sensory send of category `text` whose every request
      posts the `{text, metadata}` payload. */
  function SendText(b: Bridge, text: string, metadata: Option<Json>, net: Network): (e: Exchange<Json>)
    ensures !Connected(b) ==> e == Refused()
    ensures forall i :: 0 <= i < |e.sent| ==>
              e.sent[i] == Request(HttpPost, b.config.backendUrl + "/api/sensory/text", Some(TextPayload(text, metadata)))
    ensures e.result == SendSensoryInput(b, "text", TextPayload(text, metadata), net).result
  {
    SendSensoryInput(b, "text", TextPayload(text, metadata), net)
  }

  /** `send_emotion`: a sensory send of category `emotion` whose every
      request posts the `{arousal, valence, metadata}` payload. */
  function SendEmotion(b: Bridge, arousal: Number, valence: Number, metadata: Option<Json>, net: Network): (e: Exchange<Json>)
    ensures !Connected(b) ==> e == Refused()
    ensures forall i :: 0 <= i < |e.sent| ==>
              e.sent[i] == Request(HttpPost, b.config.backendUrl + "/api/sensory/emotion",
                                   Some(EmotionPayload(arousal, valence, metadata)))
    ensures e.result == SendSensoryInput(b, "emotion", EmotionPayload(arousal, valence, metadata), net).result
  {
    SendSensoryInput(b, "emotion", EmotionPayload(arousal, valence, metadata), net)
  }

  /** `send_audio_features`: the features are forwarded unchanged under
      category `audio`. */
  function SendAudioFeatures(b: Bridge, features: Json, net: Network): (e: Exchange<Json>)
    ensures !Connected(b) ==> e == Refused()
    ensures forall i :: 0 <= i < |e.sent| ==>
              e.sent[i] == Request(HttpPost, b.config.backendUrl + "/api/sensory/audio", Some(features))
    ensures e.result == SendSensoryInput(b, "audio", features, net).result
  {
    SendSensoryInput(b, "audio", features, net)
  }

  /** With the default configuration and no metadata, `send_emotion(a, v)`
      for any numbers `a` and `v` first posts
      `{"arousal": a, "valence": v, "metadata": {}}` to
      `http://localhost:5000/api/sensory/emotion`. */
  lemma EmotionExample(net: Network, arousal: Number, valence: Number)
    ensures var b := Connect(NewBridge(None)).after;
            var e := SendEmotion(b, arousal, valence, None, net);
            && |e.sent| >= 1
            && e.sent[0] == Request(HttpPost, "http://localhost:5000/api/sensory/emotion",
                                    Some(JObj(map["arousal" := JNum(arousal), "valence" := JNum(valence), "metadata" := JObj(map[])])))
  {
    var b := Connect(NewBridge(None)).after;
    assert b.config == DefaultConfig;
  }
}

=== FILE: status.dfy ===
/**
 * Best-effort status reports (`send_status` in api_bridge.py): a single
 * exchange, whose outcome is the parameter `outcome`, with no retry and no
 * error reaching the caller beyond the missing session.
 */
module Status {
  import opened Wrappers
  import opened Json
  import opened Transport
  import opened Bridge
  import Sensory

  /** `send_status`: one attempt; a rejected exchange yields `{}` instead of
      raising. */
  function SendStatus(b: Bridge, status: Json, outcome: Outcome): (e: Exchange<Json>)
    ensures !Connected(b) ==> e == Refused()
    ensures Connected(b) ==>
              && e.sent == [Request(HttpPost, StatusUrl(b.config), Some(status))]
              && e.delays == [] && e.invoked == None
              && e.result.Success?
    ensures Connected(b) && Rejected(outcome) ==> e.result == Success(EmptyObject)
    ensures Connected(b) && !Rejected(outcome) && outcome.body.Parsed? ==> e.result == Success(outcome.body.value)
    ensures Connected(b) && !Rejected(outcome) && outcome.body.Unparsable? ==>
              e.result == Success(InvalidJson(outcome.body.reason))
  {
    if !Connected(b) then Refused()
    else
      var req := Request(HttpPost, StatusUrl(b.config), Some(status));
      if Rejected(outcome) then Exchange(Success(EmptyObject), [req], [], None)
      else Exchange(Success(BodyResult(outcome.body)), [req], [], None)
  }

  /** A status send is a one-attempt sensory send whose errors are swallowed:
      with a single configured attempt, both issue one request and agree on
      every accepted exchange, and where the sensory send raises the status
      send returns `{}`. */
  lemma StatusIsOneAttemptSend(b: Bridge, category: string, status: Json, outcome: Outcome)
    requires Connected(b) && b.config.retryAttempts == 1
    ensures var s := Sensory.SendSensoryInput(b, category, status, _ => outcome);
            var t := SendStatus(b, status, outcome);
            && |s.sent| == |t.sent| == 1
            && (s.result.Success? ==> t.result == s.result)
            && (s.result.Failure? ==> s.result.error.ClientFailure? && t.result == Success(EmptyObject))
  {
    var net: Sensory.Network := _ => outcome;
    assert net(0) == outcome;
  }
}

=== FILE: transport.dfy ===
/**
 * The transport session seen from the engine: requests it issues and the
 * abstract outcome of each exchange. The HTTP client itself is not modelled;
 * every exchange yields one `Outcome` chosen by the environment.
 */
module Transport {
  import opened Wrappers
  import opened Json

  datatype Method = HttpGet | HttpPost

  /** One HTTP request: method, full URL and optional JSON payload. */
  datatype Request = Request(verb: Method, url: string, payload: Option<Json>)

  /** A response body: decoded JSON, or the reason decoding failed (wrong
      content type or malformed text). */
  datatype Body = Parsed(value: Json) | Unparsable(reason: string)

  /** The outcome of one exchange: a transport-level failure (connection
      refused, DNS failure, timeout) or a response with a status and body. */
  datatype Outcome = TransportFailure(reason: string) | Response(status: int, body: Body)

  /** The client error raised for an exchange: the transport failure itself,
      or the error `raise_for_status` raises for the status. */
  datatype ClientError = ConnectionFailed(reason: string) | ResponseStatus(status: int)

  /** `raise_for_status` rejects exactly the statuses from 400 upwards. */
  predicate RaisesForStatus(status: int) {
    status >= 400
  }

  /** An exchange that ends in a client error once `raise_for_status` has run. */
  predicate Rejected(o: Outcome) {
    o.TransportFailure? || RaisesForStatus(o.status)
  }

  /** The client error a rejected exchange raises. */
  function ErrorOf(o: Outcome): ClientError
    requires Rejected(o)
  {
    match o
    case TransportFailure(reason) => ConnectionFailed(reason)
    case Response(status, _) => ResponseStatus(status)
  }

  /** The structured value returned in place of a body that does not decode. */
  function InvalidJson(reason: string): (j: Json)
    ensures j.JObj? && j.fields.Keys == {"error", "message"}
    ensures j.fields["error"] == JStr("invalid_json") && j.fields["message"] == JStr(reason)
  {
    JObj(map["error" := JStr("invalid_json"), "message" := JStr(reason)])
  }

  /** What an accepted send returns for its body: the decoded value itself,
      or the `invalid_json` object carrying the decoder's message. */
  function BodyResult(body: Body): Json {
    match body
    case Parsed(v) => v
    case Unparsable(reason) => InvalidJson(reason)
  }
}

=== FILE: wrappers.dfy ===
/** Failure-carrying wrappers shared by the bridge model. */
module Wrappers {

  /** Python's `Optional[...]`: `None` or a present value. */
  datatype Option<+T> = None | Some(value: T)

  /** The outcome of an operation that either returns a value or raises an error. */
  datatype Result<+T, +E> = Success(value: T) | Failure(error: E)
}
